=== FILE: README.md ===
# Goobi: shell scripts, search columns and the run-script batch command

A Dafny model of three classes of the Goobi workflow application.

- **ShellScript** runs an external program. The command line is the program
  path followed by the argument tokens. The run records the program's stdout
  lines, its stderr lines and its exit code. Two static helpers build such a
  run from what callers have:
  - `callShell` takes a token list whose first token is the script.
  - `legacyCallShell2` takes one command string. It splits the string at its
    first space. It then splits the parameter text at double quotes when
    there are any, and at spaces otherwise, and keeps the trimmed, non-blank
    pieces.

  Both helpers report `ERRORLEVEL_ERROR` (1) when the script wrote anything
  to stderr or its file does not exist.
- **SearchColumn** turns a search value such as `prozesseeigenschaften.Titel`
  or `metadata.TitleDocMain` into SQL fragments. These are the table alias,
  the table type, the column, the join clause and the additional table. The
  value's prefix and the column's position (`order`) decide each fragment.
- **GoobiScriptRunScript** is the batch command that runs a step's script for
  a set of processes.
  - `prepare` refuses a missing `steptitle` parameter. Otherwise it adds one
    WAITING result per process.
  - The worker thread walks a snapshot of the result list. It takes up each
    result of its command that is still WAITING, while the manager says
    scripts are waiting. It marks the result RUNNING with the process title.
    Then it runs the named script, or all scripts, of every step whose title
    matches, ignoring case. Return codes 0, 98 and 99 count as OK; any other
    code is an ERROR.

The files:

- `java_lang.dfy` (module `JavaLang`): the JDK behaviour the classes rely on.
  - Null is modelled as `Option` and exceptions as `Result`.
  - `indexOf`/`substring`, `trim`, `split` with a one-character separator
    (trailing empty pieces removed), `Integer.toString` and
    `equalsIgnoreCase`.
  - The operations the rest of the model reasons about (`indexOf`, `trim`,
    `split`, `Integer.toString`) come with an inverse or a characterisation;
    `equalsIgnoreCase` comes with an upper-case reference form.
- `shell_script.dfy` (module `Shell`): the ShellScript class. The file system
  is a predicate `fileExists`. The operating system is a `Launcher` that maps
  a command line to what the process produced.
- `search_column.dfy` (module `Search`): the SearchColumn getters over
  `(value, order)`, with `value` possibly null.
- `goobi_script.dfy` (module `GoobiScript`): `prepare` and the worker, as a
  fold over the snapshot. The manager's "scripts waiting" answer, the process
  lookup and the script return codes come from an `Environment`.

## Model

| member | source | states |
|---|---|---|
| JavaLang.IndexOf | Goobi/src/de/sub/goobi/helper/ShellScript.java:284-285 | -1 exactly when the character is absent; otherwise a position holding it with no earlier occurrence |
| JavaLang.AfterFirst | Goobi/src/de/sub/goobi/helper/ShellScript.java:285 | `substring(indexOf(c)+1)`: the whole string when `c` is absent; otherwise the string is a c-free prefix, `c`, then the result |
| JavaLang.BeforeFirst | Goobi/src/de/sub/goobi/helper/ShellScript.java:284 | `substring(0, indexOf(c))`: the whole string when `c` is absent; otherwise a c-free text that, followed by `c` and the text after the first `c`, is the string |
| JavaLang.IndexOfConcat | Goobi/src/de/sub/goobi/helper/ShellScript.java:284 | in `prefix + c + rest` with no `c` in the prefix, the first `c` is at the prefix's length |
| JavaLang.Trim | Goobi/src/de/sub/goobi/helper/ShellScript.java:300-301 | the result has no blank at either end; it is empty exactly when every character is blank |
| JavaLang.TrimRemovesBlankEnds | Goobi/src/de/sub/goobi/helper/ShellScript.java:300-301 | the trimmed text is a slice of the string with only blank characters before and after it |
| JavaLang.SplitOn | Goobi/src/de/sub/goobi/helper/ShellScript.java:294-298 | at least one piece; no piece contains the separator |
| JavaLang.JoinSplit | Goobi/src/de/sub/goobi/helper/ShellScript.java:294-298 | joining the split pieces with the separator gives back the string |
| JavaLang.SplitJoin | Goobi/src/de/sub/goobi/helper/ShellScript.java:294-298 | splitting a join of separator-free pieces gives back the pieces |
| JavaLang.JavaSplit | Goobi/src/de/sub/goobi/helper/ShellScript.java:295-297 | `String.split` with a one-character separator: no resulting piece contains the separator |
| JavaLang.KeepNonBlank | Goobi/src/de/sub/goobi/helper/ShellScript.java:299-303 | the loop that keeps each piece's trimmed text unless it is blank: never more arguments than pieces (the next four rows characterise the contents) |
| JavaLang.KeepNonBlankTrimmed | Goobi/src/de/sub/goobi/helper/ShellScript.java:299-303 | every kept piece is non-empty and trimmed |
| JavaLang.KeptComeFromPieces | Goobi/src/de/sub/goobi/helper/ShellScript.java:299-303 | every kept argument is the trimmed text of one of the pieces |
| JavaLang.NonBlankAreKept | Goobi/src/de/sub/goobi/helper/ShellScript.java:299-303 | the trimmed text of every non-blank piece is among the kept arguments |
| JavaLang.KeepNonBlankAppend | Goobi/src/de/sub/goobi/helper/ShellScript.java:299-303 | filtering a concatenation is concatenating the filtered parts |
| JavaLang.JavaSplitKeepsNonBlank | Goobi/src/de/sub/goobi/helper/ShellScript.java:295-303 | dropping trailing empty pieces never changes which non-blank arguments the loop keeps |
| JavaLang.NatToDecimal | Goobi/src/org/goobi/production/flow/helper/SearchColumn.java:46 | decimal digits only, non-empty, no leading zero except for 0 itself |
| JavaLang.IntToDecimal | Goobi/src/org/goobi/production/flow/helper/SearchColumn.java:46 | `"…" + order`: a minus sign exactly for negative values, followed by digits |
| JavaLang.DecimalRoundTrip | Goobi/src/org/goobi/production/flow/helper/SearchColumn.java:46 | parsing the rendering of any int gives the int back |
| JavaLang.DecimalInjective | Goobi/src/org/goobi/production/flow/helper/SearchColumn.java:46-52 | two ints with the same rendering are equal |
| JavaLang.EqualsIgnoreCase | Goobi/src/org/goobi/goobiScript/GoobiScriptRunScript.java:63 | `equalsIgnoreCase`: false for a null argument; otherwise true exactly when the two strings have the same upper-case form |
| JavaLang.EqualsIgnoreCaseIsEquivalence | Goobi/src/org/goobi/goobiScript/GoobiScriptRunScript.java:63 | comparing ignoring case is reflexive, symmetric and transitive |
| Shell.NewShellScript | Goobi/src/de/sub/goobi/helper/ShellScript.java:111-116 | succeeds exactly when the executable exists, with that command and no channels or level yet; otherwise FileNotFoundException |
| Shell.CommandLine | Goobi/src/de/sub/goobi/helper/ShellScript.java:149-153 | the command is the first token; the arguments, if not null, are the remaining tokens |
| Shell.Run | Goobi/src/de/sub/goobi/helper/ShellScript.java:147-180 | launches `[command] ++ args`; returns the exit code exactly when the process started and was not interrupted, then holds both channels and the level; a failed run leaves the level as it was |
| Shell.ReportedLevel | Goobi/src/de/sub/goobi/helper/ShellScript.java:249-250 | any stderr line forces ERRORLEVEL_ERROR; otherwise the exit code passes through |
 Goobi/src/de/sub/goobi/helper/ShellScript.java:238-264 | a missing script gives ERRORLEVEL_ERROR and launches nothing; otherwise the helper's result is the reference outcome of the launched command line |
| Shell.CallShell | Goobi/src/de/sub/goobi/helper/ShellScript.java:222-265 | an empty list returns 0 without launching; a missing script returns 1; otherwise the launched command line is exactly the token list |
| Shell.LegacySplit | Goobi/src/de/sub/goobi/helper/ShellScript.java:281-288 | with a space: name + " " + rest is the command and the name has no space; without one: the whole command and "" |
| Shell.LegacySplitUnique | Goobi/src/de/sub/goobi/helper/ShellScript.java:283-285 | the split at the first space is the only split with a space-free script name |
| Shell.LegacyArguments | Goobi/src/de/sub/goobi/helper/ShellScript.java:291-309 | empty parameter text gives the single argument ""; otherwise every argument is non-empty and trimmed and free of the separator (quote when one occurs, else space) |
| Shell.KeepNonBlankAvoids | Goobi/src/de/sub/goobi/helper/ShellScript.java:299-303 | trimming and dropping pieces never brings back a separator |
| Shell.LegacyArgumentsAreSegments | Goobi/src/de/sub/goobi/helper/ShellScript.java:292-303 | the arguments are the trimmed non-blank texts between separators, and those texts re-joined give back the parameter text |
| Shell.LegacyCallShell2 | Goobi/src/de/sub/goobi/helper/ShellScript.java:276-339 | a missing script gives 1 without launching; otherwise launches the script name followed by the legacy arguments; a command without a space launches `[command, ""]` |
| Search.FamilyOf | Goobi/src/org/goobi/production/flow/helper/SearchColumn.java:38-54 | a family is found only when the value starts with its prefix; none only for null or a value with no known prefix |
| Search.PrefixesExclusive | Goobi/src/org/goobi/production/flow/helper/SearchColumn.java:41-53 | a value starts with at most one family prefix, so the order of the startsWith tests does not matter |
| Search.FamilyOfIffPrefix | Goobi/src/org/goobi/production/flow/helper/SearchColumn.java:38-54 | the chain finds family f exactly when the value starts with f's prefix |
| Search.FamilyMeansDot | Goobi/src/org/goobi/production/flow/helper/SearchColumn.java:80 | every recognised value contains a dot |
| Search.FamilyWord | Goobi/src/org/goobi/production/flow/helper/SearchColumn.java:38-55 | for a value with a family prefix, the text before the first dot is the family's table name and the prefix plus the text after it is the value |
| Search.FieldName | Goobi/src/org/goobi/production/flow/helper/SearchColumn.java:83 | prefix followed by the result is the value: the text after the first dot |
| Search.NewSearchColumn | Goobi/src/org/goobi/production/flow/helper/SearchColumn.java:22-28 | keeps the order, and every getter answers "" for the initial empty value |
| Search.TableName | Goobi/src/org/goobi/production/flow/helper/SearchColumn.java:38-55 | "" exactly for null, empty or unrecognised values; for processes and projects the text before the value's first dot; for every other family that text followed by the order |
| Search.AliasNumber | Goobi/src/org/goobi/production/flow/helper/SearchColumn.java:38-55 | the alias is the table name followed by a text that is empty or starts with a non-letter |
| Search.TableNameIdentifiesColumn | Goobi/src/org/goobi/production/flow/helper/SearchColumn.java:38-55 | two columns with the same non-empty alias have the same family and, for numbered families, the same order |
| Search.TableType | Goobi/src/org/goobi/production/flow/helper/SearchColumn.java:61-77 | "" exactly for the processes table and unrecognised values; otherwise the text before the value's first dot followed by one space |
| Search.TableTypeNamesAlias | Goobi/src/org/goobi/production/flow/helper/SearchColumn.java:38-77 | the alias is the type without its space, followed by the order for numbered families |
| Search.ColumnName | Goobi/src/org/goobi/production/flow/helper/SearchColumn.java:79-89 | "" without a dot; the text after the prefix for processes and projects; `print` for metadata; `Wert` for every other dotted value |
| Search.JoinClause | Goobi/src/org/goobi/production/flow/helper/SearchColumn.java:91-122 | "" exactly when the table name is empty or the table is processes; template and workpiece joins start with the additional table; every property or metadata join ends with the quoted field name |
| Search.ProjectJoinText | Goobi/src/org/goobi/production/flow/helper/SearchColumn.java:106-107 | the projects join is ` projekte <alias> ON prozesse.ProjekteID = <alias>.ProjekteID` |
| Search.ProcessPropertyJoinText | Goobi/src/org/goobi/production/flow/helper/SearchColumn.java:96-97 | the process-property join is ` prozesseeigenschaften <alias> ON prozesse.ProzesseID = <alias>.prozesseID AND <alias>.Titel = "<field>"`, with the field the text after the value's first dot |
| Search.MetadataJoinText | Goobi/src/org/goobi/production/flow/helper/SearchColumn.java:101-102 | the metadata join is ` metadata <alias> ON prozesse.ProzesseID = <alias>.processid AND <alias>.name = "<field>"` |
| Search.TemplateJoinText | Goobi/src/org/goobi/production/flow/helper/SearchColumn.java:109-111 | the template-property join goes through `vorlagen<order>` tied to the process, then left-joins `vorlageneigenschaften <alias>` on the template id and compares its title with the quoted field |
| Search.WorkpieceJoinText | Goobi/src/org/goobi/production/flow/helper/SearchColumn.java:114-116 | the workpiece-property join has the same shape over `werkstuecke<order>` and `werkstueckeeigenschaften <alias>` |
| Search.QuotedJoin | Goobi/src/org/goobi/production/flow/helper/SearchColumn.java:97-98 | the clause starts with its head and ends with the field in double quotes |
| Search.AdditionalTable | Goobi/src/org/goobi/production/flow/helper/SearchColumn.java:124-131 | non-empty exactly for template and workpiece properties; then the value's table is `t` + "eigenschaften" and the result is " t t" followed by the order |
| Search.AdditionalTableOwnsTableType | Goobi/src/org/goobi/production/flow/helper/SearchColumn.java:124-131 | a non-empty additional table goes with type `t` + "eigenschaften " and is " t t" followed by the order |
| Search.AdditionalTableAsWritten | Goobi/src/org/goobi/production/flow/helper/SearchColumn.java:124-131 | throws exactly when the value is null; otherwise agrees with the corrected getter |
| GoobiScript.NewResults | Goobi/src/org/goobi/goobiScript/GoobiScriptRunScript.java:31-34 | one waiting result per process, in order |
| GoobiScript.Prepare | Goobi/src/org/goobi/goobiScript/GoobiScriptRunScript.java:22-37 | refuses exactly a missing or empty `steptitle` and then leaves the list alone; otherwise keeps the list and appends a fresh waiting result per process |
| GoobiScript.PrepareAppendsSubmittedProcesses | Goobi/src/org/goobi/goobiScript/GoobiScriptRunScript.java:31-34 | the appended results name exactly the submitted process ids, in order, all waiting for this command |
| GoobiScript.CallFor | Goobi/src/org/goobi/goobiScript/GoobiScriptRunScript.java:65-86 | no call exactly when a named script is missing from the step; otherwise a call for this process and step, to the named script's path when a name is given and to all scripts when none is |
| GoobiScript.RunStep | Goobi/src/org/goobi/goobiScript/GoobiScriptRunScript.java:64-97 | a missing named script is an ERROR with no call; otherwise exactly one call, OK exactly for return codes 0, 98 and 99, and an ERROR message ending in the code |
| GoobiScript.ProcessSteps | Goobi/src/org/goobi/goobiScript/GoobiScriptRunScript.java:62-99 | keeps the result's identity and title, only appends calls, and never sends a result back to WAITING |
| GoobiScript.NoMatchingStepChangesNothing | Goobi/src/org/goobi/goobiScript/GoobiScriptRunScript.java:62-63 | without a step of the requested title the loop changes nothing |
| GoobiScript.LastMatchingStepDecides | Goobi/src/org/goobi/goobiScript/GoobiScriptRunScript.java:62-99 | the last matching step's outcome is the recorded one |
| GoobiScript.PickUp | Goobi/src/org/goobi/goobiScript/GoobiScriptRunScript.java:58-59 | the taken-up result keeps its identity and message, carries the process title and is RUNNING |
| GoobiScript.HandleResult | Goobi/src/org/goobi/goobiScript/GoobiScriptRunScript.java:57-99 | fails exactly when the process lookup returns null; otherwise keeps identity, leaves the result RUNNING, OK or ERROR, and only appends calls |
| GoobiScript.LastMatchingStepDecidesResult | Goobi/src/org/goobi/goobiScript/GoobiScriptRunScript.java:57-99 | for a found process, the handled result is the picked-up result run through the steps before the last matching one and then that step's RunStep |
| GoobiScript.UnmatchedProcessStaysRunning | Goobi/src/org/goobi/goobiScript/GoobiScriptRunScript.java:57-63 | a process with no matching step leaves its result RUNNING with the process title |
| GoobiScript.RunFrom | Goobi/src/org/goobi/goobiScript/GoobiScriptRunScript.java:54-102 | length kept; only eligible results asked about while the manager reports scripts waiting change, keeping identity and leaving WAITING; calls only appended; every changed result is the record HandleResult makes of it starting from a call history that extends the input calls, with every call it makes among the run's calls; an abort points at an eligible result, reached while scripts are waiting, whose process is unknown, and leaves it and every later result unchanged |
| GoobiScript.RunScriptThread | Goobi/src/org/goobi/goobiScript/GoobiScriptRunScript.java:48-103 | results of other commands, non-waiting results and results reached when the manager reports no scripts waiting are untouched; a changed result keeps its identity, is no longer WAITING, and is the record HandleResult makes of the snapshot entry, with every call it makes among the run's calls |
| GoobiScript.NoScriptsWaitingChangesNothing | Goobi/src/org/goobi/goobiScript/GoobiScriptRunScript.java:56 | when the manager reports no scripts waiting for the rest of the snapshot, the worker changes nothing and runs no script |
| GoobiScript.WorkerTakesUpEveryEligible | Goobi/src/org/goobi/goobiScript/GoobiScriptRunScript.java:55-60 | when scripts keep waiting and every process exists, no eligible result is left WAITING and the run does not abort |
| GoobiScript.NoEligibleChangesNothing | Goobi/src/org/goobi/goobiScript/GoobiScriptRunScript.java:55-56 | with no eligible result the worker changes nothing and runs no script |

## Left out

- Reading the process streams line by line (`inputStreamToLinkedList`), closing them, and the S3 environment variables. A `Launcher` returns the lines and the exit code instead, because these are operating-system I/O.
- Logging, process-log entries and user messages (`Helper.*`, `logger.*`). They do not affect any returned value.
- `Paths.get(scriptname)` is taken as the identity on the name, because path normalisation belongs to the file system.
- The `processID` argument of the shell helpers, because it is used only for log entries.
- `execute` and thread start-up, and concurrent changes to the result list. The worker is modelled as a sequential fold over one snapshot.
- Timestamps (`updateTimestamp`), because they come from the clock.
- The GoobiScriptResult class is not part of this model. `GoobiScript.NewResult` assumes a fresh result is WAITING with an empty title and message. The worker only takes up WAITING results, which supports this reading.
- `super.prepare` of the abstract GoobiScript base class, because that class is not part of this model.
- `StepManager.getStepById` is modelled by passing the step id into the script call.
- `HelperSchritte`'s script execution is modelled as an oracle return code per call.
- JavaLang.EqualsIgnoreCase: folds only ASCII letters, because the JDK's full Unicode case mapping is out of scope.
- Search.TableName: `order` is an unbounded int, so the model does not restrict it to Java's 32-bit range. Renderings agree for every value a Java int can hold.
- Null step titles are not modelled; `step.getTitel().equalsIgnoreCase` at GoobiScriptRunScript.java:63 would throw on one.
- A null path in a step's script map is not modelled. Lines 67-68 pass it on to `HelperSchritte`, which is not part of this model.
- The code forces no final state, in two cases:
  - A process without a matching step leaves its result RUNNING (`GoobiScript.UnmatchedProcessStaysRunning`).
  - An unknown process throws before the result is touched, which ends the worker; it and all later results stay as they were (`GoobiScript.RunFrom`, `aborted`).

## Findings

| source | as written | input that shows it | evidently intended | confidence | as-written member | corrected member |
|---|---|---|---|---|---|---|
| Goobi/src/org/goobi/production/flow/helper/SearchColumn.java:124-131 | `getAdditionalTable` calls `value.startsWith` without the null check made by the other four getters | `setValue(null)`, then `getAdditionalTable()`: the other getters return "" but this one throws NullPointerException | return "" for a null value, like the other getters | medium, not executed | Search.AdditionalTableAsWritten (and Search.NullValueCounterexample) | Search.AdditionalTable |

=== FILE: goobi_script.dfy ===
/**
 GoobiScriptRunScript: the batch command that runs a step's script for every
 selected process. `prepare` checks the parameters and adds one WAITING
 result per process; the worker thread then walks a snapshot of the result
 list and, for every result of this command that is still WAITING, looks
 the process up, marks the result RUNNING and runs the script of every step
 whose title matches, recording OK or ERROR.

 The worker is a sequential fold over the snapshot. What it consults outside
 the list — whether the command still has scripts waiting, the process
 lookup, and the return code of a script — comes from an `Environment`.
 */
module GoobiScript {
  import opened JavaLang

  /** GoobiScriptResultType, as far as this command uses it. */
  datatype ResultType = Waiting | Running | Ok | Error

  /** One GoobiScriptResult: a process in one batch command. Its timestamp is
      not modelled. */
  datatype GoobiScriptResult = GoobiScriptResult(
    processId: int,
    command: string,
    username: string,
    processTitle: string,
    resultType: ResultType,
    resultMessage: string)

  /** The GoobiScriptResult constructor: waiting, with no title or message yet. */
  function NewResult(processId: int, command: string, username: string): GoobiScriptResult {
    GoobiScriptResult(processId, command, username, "", Waiting, "")
  }

  /** The fields a result keeps for its whole life. */
  predicate SameIdentity(a: GoobiScriptResult, b: GoobiScriptResult) {
    a.processId == b.processId && a.command == b.command && a.username == b.username
  }

  /* --------------------------------------------------------------- prepare */

  /** The command's parameters; a key mapped to null is modelled as absent. */
  type Parameters = map<string, string>

  datatype Prepared = Prepared(accepted: bool, resultList: seq<GoobiScriptResult>)

  function NewResults(processes: seq<int>, command: string, username: string): (rs: seq<GoobiScriptResult>)
    ensures |rs| == |processes|
    ensures forall k :: 0 <= k < |rs| ==> rs[k] == NewResult(processes[k], command, username)
  {
    seq(|processes|, k requires 0 <= k < |processes| => NewResult(processes[k], command, username))
  }

  /** prepare: refuses a missing or empty `steptitle` without touching the
      result list; otherwise appends one waiting result per process, in order. */
  function Prepare(processes: seq<int>, command: string, parameters: Parameters, username: string,
                   resultList: seq<GoobiScriptResult>): (r: Prepared)
    ensures !r.accepted <==> "steptitle" !in parameters || parameters["steptitle"] == ""
    ensures !r.accepted ==> r.resultList == resultList
    ensures r.accepted ==> |r.resultList| == |resultList| + |processes|
    ensures r.accepted ==> r.resultList[..|resultList|] == resultList
    ensures r.accepted ==> forall k :: 0 <= k < |processes| ==>
              r.resultList[|resultList| + k] == NewResult(processes[k], command, username)
  {
    if "steptitle" !in parameters || parameters["steptitle"] == "" then Prepared(false, resultList)
    else Prepared(true, resultList + NewResults(processes, command, username))
  }

  function ProcessIds(rs: seq<GoobiScriptResult>): (ids: seq<int>)
    ensures |ids| == |rs| && forall k :: 0 <= k < |rs| ==> ids[k] == rs[k].processId
  {
    seq(|rs|, k requires 0 <= k < |rs| => rs[k].processId)
  }

  /** The results an accepted prepare appends name exactly the submitted
      processes, in order, all waiting for this command. */
  lemma PrepareAppendsSubmittedProcesses(processes: seq<int>, command: string, parameters: Parameters,
                                         username: string, resultList: seq<GoobiScriptResult>)
    requires "steptitle" in parameters && parameters["steptitle"] != ""
    ensures var added := Prepare(processes, command, parameters, username, resultList).resultList[|resultList|..];
            && ProcessIds(added) == processes
            && forall k :: 0 <= k < |added| ==> added[k].resultType == Waiting && added[k].command == command
  {
    var added := Prepare(processes, command, parameters, username, resultList).resultList[|resultList|..];
    assert forall k :: 0 <= k < |added| ==> added[k] == NewResult(processes[k], command, username);
  }

  /* ---------------------------------------------------------------- worker */

  datatype Step = Step(id: int, title: string, scripts: map<string, string>)

  datatype Process = Process(id: int, title: string, steps: seq<Step>)

  /** One call into HelperSchritte: executeScriptForStepObject with the path
      of the named script, or executeAllScriptsForStep. */
  datatype ScriptCall =
    | RunNamedScript(processId: int, stepId: int, path: string)
    | RunAllScripts(processId: int, stepId: int)

  /** What the worker asks outside the result list: the manager's answer to
      whether the command still has scripts waiting, asked afresh before the
      n-th snapshot entry; the process lookup (null for an unknown id); and
      the return code of the n-th script call of the run. */
  datatype Environment = Environment(
    scriptsWaiting: nat -> bool,
    processById: int -> Option<Process>,
    returnCode: (ScriptCall, nat) -> int)

  /** The command name and its `steptitle` and `script` parameters (either may
      be null), with the environment. */
  datatype Job = Job(command: string, steptitle: Option<string>, scriptname: Option<string>, env: Environment)

  /** Return codes 0, 98 and 99 count as success. */
  predicate IsSuccess(returnCode: int) {
    returnCode == 0 || returnCode == 98 || returnCode == 99
  }

  /** A result and the script calls made so far. */
  datatype Progress = Progress(record: GoobiScriptResult, calls: seq<ScriptCall>)

  predicate MatchesStep(step: Step, job: Job) {
    EqualsIgnoreCase(step.title, job.steptitle)
  }

  /** The script call a matching step leads to, if any: none when a named
      script is missing from the step. */
  function CallFor(processId: int, step: Step, job: Job): (r: Option<ScriptCall>)
    ensures r.None? <==> job.scriptname.Some? && job.scriptname.value !in step.scripts
    ensures r.Some? ==> r.value.processId == processId && r.value.stepId == step.id
    ensures r.Some? ==> (r.value.RunNamedScript? <==> job.scriptname.Some?)
    ensures r.Some? && r.value.RunNamedScript? ==> r.value.path == step.scripts[job.scriptname.value]
  {
    match job.scriptname
    case Some(name) =>
      if name in step.scripts then Some(RunNamedScript(processId, step.id, step.scripts[name])) else None
    case None => Some(RunAllScripts(processId, step.id))
  }

  /** The body of the step loop for a step whose title matched: run the named
      script, or all scripts, and overwrite the result's type and message. */
  function RunStep(p: Progress, step: Step, title: string, job: Job): (r: Progress)
    ensures SameIdentity(r.record, p.record) && r.record.processTitle == p.record.processTitle
    ensures r.record.resultType == Ok || r.record.resultType == Error
    ensures CallFor(p.record.processId, step, job).None? ==>
              && r.calls == p.calls
              && r.record.resultType == Error
              && "Cant find script '" <= r.record.resultMessage
    ensures CallFor(p.record.processId, step, job).Some? ==>
              var call := CallFor(p.record.processId, step, job).value;
              var code := job.env.returnCode(call, |p.calls|);
              && r.calls == p.calls + [call]
              && (r.record.resultType == Ok <==> IsSuccess(code))
              && (r.record.resultType == Error ==>
                    var suffix := IntToDecimal(code);
                    |suffix| <= |r.record.resultMessage|
                    && r.record.resultMessage[|r.record.resultMessage| - |suffix|..] == suffix)
  {
    match CallFor(p.record.processId, step, job)
    case None =>
      var name := job.scriptname.value;
      var message := "Cant find script '" + name + "' for step '" + title + "'.";
      assert "Cant find script '" <= message;
      Progress(p.record.(resultMessage := message, resultType := Error), p.calls)
    case Some(call) =>
      var code := job.env.returnCode(call, |p.calls|);
      var message :=
        if IsSuccess(code) then
          if call.RunNamedScript? then
            "Script '" + job.scriptname.value + "' for step '" + title + "' executed successfully."
          else
            "All scripts for step '" + title + "' executed successfully."
        else
          var lead :=
            if call.RunNamedScript? then
              "A problem occured while executing script '" + job.scriptname.value + "' for step '" + title + "': "
            else
              "A problem occured while executing all scripts for step '" + title + "': ";
          var m := lead + IntToDecimal(code);
          assert m[|m| - |IntToDecimal(code)|..] == IntToDecimal(code);
          m;
      Progress(p.record.(resultMessage := message, resultType := if IsSuccess(code) then Ok else Error),
               p.calls + [call])
  }

  /** One turn of the step loop: steps whose title does not match are skipped. */
  function ConsiderStep(p: Progress, step: Step, job: Job): Progress {
    if MatchesStep(step, job) then RunStep(p, step, job.steptitle.value, job) else p
  }

  /** The step loop over the process's steps, in list order. */
  function ProcessSteps(p: Progress, steps: seq<Step>, job: Job): (r: Progress)
    ensures SameIdentity(r.record, p.record) && r.record.processTitle == p.record.processTitle
    ensures |p.calls| <= |r.calls| && r.calls[..|p.calls|] == p.calls
    ensures p.record.resultType != Waiting ==> r.record.resultType != Waiting
    decreases |steps|
  {
    if steps == [] then p
    else
      var before := ProcessSteps(p, steps[..|steps| - 1], job);
      var r := ConsiderStep(before, steps[|steps| - 1], job);
      assert r.calls[..|p.calls|] == r.calls[..|before.calls|][..|p.calls|];
      r
  }

  /** A process without a step of the requested title leaves the result as
      the loop found it. */
  lemma {:induction false} NoMatchingStepChangesNothing(p: Progress, steps: seq<Step>, job: Job)
    requires forall k :: 0 <= k < |steps| ==> !MatchesStep(steps[k], job)
    ensures ProcessSteps(p, steps, job) == p
    decreases |steps|
  {
    if steps != [] {
      NoMatchingStepChangesNothing(p, steps[..|steps| - 1], job);
    }
  }

  /** When several steps match, the last one decides: the steps after it
      change nothing, and it overwrites whatever the earlier ones recorded. */
  lemma {:induction false} LastMatchingStepDecides(p: Progress, steps: seq<Step>, k: nat, job: Job)
    requires k < |steps| && MatchesStep(steps[k], job)
    requires forall j :: k < j < |steps| ==> !MatchesStep(steps[j], job)
    ensures ProcessSteps(p, steps, job) == RunStep(ProcessSteps(p, steps[..k], job), steps[k], job.steptitle.value, job)
    decreases |steps|
  {
    if k == |steps| - 1 {
      assert steps[..|steps| - 1] == steps[..k];
    } else {
      var init := steps[..|steps| - 1];
      assert init[..k] == steps[..k];
      LastMatchingStepDecides(p, init, k, job);
    }
  }

  /** Whether a snapshot entry is one this worker takes up. */
  predicate Eligible(r: GoobiScriptResult, command: string) {
    r.resultType == Waiting && r.command == command
  }

  /** A result taken up: it carries the process title and is RUNNING before
      any script runs. */
  function PickUp(r: GoobiScriptResult, process: Process): (p: GoobiScriptResult)
    ensures SameIdentity(p, r) && p.resultMessage == r.resultMessage
    ensures p.processTitle == process.title && p.resultType == Running
  {
    r.(processTitle := process.title, resultType := Running)
  }

  /** The loop body for one eligible result; None when the process lookup
      returns null, which throws and ends the thread. */
  function HandleResult(r: GoobiScriptResult, calls: seq<ScriptCall>, job: Job): (out: Option<Progress>)
    ensures out.None? <==> job.env.processById(r.processId).None?
    ensures out.Some? ==>
              && SameIdentity(out.value.record, r)
              && out.value.record.resultType in {Running, Ok, Error}
              && |calls| <= |out.value.calls| && out.value.calls[..|calls|] == calls
  {
    match job.env.processById(r.processId)
    case None => None
    case Some(process) => Some(ProcessSteps(Progress(PickUp(r, process), calls), process.steps, job))
  }

  /** The result a found process ends with is the outcome of the last step
      whose title matches, run on the picked-up result after the steps
      before it. */
  lemma LastMatchingStepDecidesResult(r: GoobiScriptResult, calls: seq<ScriptCall>, job: Job, process: Process, k: nat)
    requires job.env.processById(r.processId) == Some(process)
    requires k < |process.steps| && MatchesStep(process.steps[k], job)
    requires forall j :: k < j < |process.steps| ==> !MatchesStep(process.steps[j], job)
    ensures HandleResult(r, calls, job) ==
            Some(RunStep(ProcessSteps(Progress(PickUp(r, process), calls), process.steps[..k], job),
                         process.steps[k], job.steptitle.value, job))
  {
    LastMatchingStepDecides(Progress(PickUp(r, process), calls), process.steps, k, job);
  }

  /** `after` is what the loop body makes of `before` when it starts from a
      call history `cs` that extends `lo`, and every call it makes is in `hi`:
      the body ran on calls the worker actually made. */
  ghost predicate HandledWithin(before: GoobiScriptResult, after: GoobiScriptResult, job: Job,
                                lo: seq<ScriptCall>, hi: seq<ScriptCall>) {
    exists cs :: && lo <= cs
                 && HandleResult(before, cs, job).Some?
                 && HandleResult(before, cs, job).value.record == after
                 && HandleResult(before, cs, job).value.calls <= hi
  }

  /** A process none of whose steps has the requested title leaves its result
      RUNNING with the process title: the loop sets no final state then. */
  lemma UnmatchedProcessStaysRunning(r: GoobiScriptResult, calls: seq<ScriptCall>, job: Job, process: Process)
    requires job.env.processById(r.processId) == Some(process)
    requires forall k :: 0 <= k < |process.steps| ==> !MatchesStep(process.steps[k], job)
    ensures HandleResult(r, calls, job) == Some(Progress(PickUp(r, process), calls))
    ensures HandleResult(r, calls, job).value.record.resultType == Running
  {
    NoMatchingStepChangesNothing(Progress(PickUp(r, process), calls), process.steps, job);
  }

  /** Outcome of a worker run: the snapshot's results afterwards, every script
      call in order, and whether the thread died on an unknown process. */
  datatype WorkerRun = WorkerRun(results: seq<GoobiScriptResult>, calls: seq<ScriptCall>, aborted: bool)

  /** The worker loop from snapshot position `i` on. */
  function RunFrom(results: seq<GoobiScriptResult>, i: nat, calls: seq<ScriptCall>, job: Job): (w: WorkerRun)
    requires i <= |results|
    ensures |w.results| == |results|
    ensures forall j :: 0 <= j < i ==> w.results[j] == results[j]
    ensures forall j :: i <= j < |results| && w.results[j] != results[j] ==>
              && Eligible(results[j], job.command)
              && SameIdentity(w.results[j], results[j])
              && w.results[j].resultType != Waiting
    ensures forall j :: i <= j < |results| && w.results[j] != results[j] ==>
              HandledWithin(results[j], w.results[j], job, calls, w.calls)
    ensures |calls| <= |w.calls| && w.calls[..|calls|] == calls
    ensures forall j :: i <= j < |results| && !job.env.scriptsWaiting(j) ==> w.results[j] == results[j]
    ensures w.aborted ==> exists j :: && i <= j < |results| && Eligible(results[j], job.command)
                                      && job.env.scriptsWaiting(j)
                                      && job.env.processById(results[j].processId).None?
                                      && forall k :: j <= k < |results| ==> w.results[k] == results[k]
    decreases |results| - i
  {
    if i == |results| then WorkerRun(results, calls, false)
    else if job.env.scriptsWaiting(i) && Eligible(results[i], job.command) then
      match HandleResult(results[i], calls, job)
      case None => WorkerRun(results, calls, true)
      case Some(done) =>
        var w := RunFrom(results[i := done.record], i + 1, done.calls, job);
        assert w.calls[..|calls|] == w.calls[..|done.calls|][..|calls|];
        assert forall j :: i < j < |results| ==> results[i := done.record][j] == results[j];
        assert w.results[i] == done.record;
        assert HandleResult(results[i], calls, job).Some? && w.results[i] == HandleResult(results[i], calls, job).value.record;
        assert done.calls <= w.calls;
        assert HandledWithin(results[i], w.results[i], job, calls, w.calls);
        forall j | i < j < |results| && w.results[j] != results[j]
          ensures HandledWithin(results[j], w.results[j], job, calls, w.calls)
        {
          var cs :| && done.calls <= cs
                    && HandleResult(results[j], cs, job).Some?
                    && HandleResult(results[j], cs, job).value.record == w.results[j]
                    && HandleResult(results[j], cs, job).value.calls <= w.calls;
          assert calls <= cs;
        }
        w
    else RunFrom(results, i + 1, calls, job)
  }

  /** RunScriptThread.run over a snapshot of the result list. */
  function RunScriptThread(snapshot: seq<GoobiScriptResult>, job: Job): (w: WorkerRun)
    ensures |w.results| == |snapshot|
    ensures forall j :: 0 <= j < |snapshot| && !Eligible(snapshot[j], job.command) ==> w.results[j] == snapshot[j]
    ensures forall j :: 0 <= j < |snapshot| && !job.env.scriptsWaiting(j) ==> w.results[j] == snapshot[j]
    ensures forall j :: 0 <= j < |snapshot| && w.results[j] != snapshot[j] ==>
              SameIdentity(w.results[j], snapshot[j]) && w.results[j].resultType != Waiting
    ensures forall j :: 0 <= j < |snapshot| && w.results[j] != snapshot[j] ==>
              HandledWithin(snapshot[j], w.results[j], job, [], w.calls)
  {
    RunFrom(snapshot, 0, [], job)
  }

  /** With scripts still waiting throughout and every process found, the
      worker takes up every eligible result: none is left WAITING. */
  lemma {:induction false} WorkerTakesUpEveryEligible(results: seq<GoobiScriptResult>, i: nat, calls: seq<ScriptCall>, job: Job)
    requires i <= |results|
    requires forall n :: job.env.scriptsWaiting(n)
    requires forall id :: job.env.processById(id).Some?
    ensures !RunFrom(results, i, calls, job).aborted
    ensures forall j :: i <= j < |results| && Eligible(results[j], job.command) ==>
              RunFrom(results, i, calls, job).results[j].resultType != Waiting
    decreases |results| - i
  {
    if i < |results| {
      if Eligible(results[i], job.command) {
        var done := HandleResult(results[i], calls, job).value;
        var next := results[i := done.record];
        WorkerTakesUpEveryEligible(next, i + 1, done.calls, job);
        assert forall j :: i < j < |results| ==> next[j] == results[j];
      } else {
        WorkerTakesUpEveryEligible(results, i + 1, calls, job);
      }
    }
  }

  /** With no eligible result left, the worker changes no result and runs no
      script. */
  lemma {:induction false} NoEligibleChangesNothing(results: seq<GoobiScriptResult>, i: nat, calls: seq<ScriptCall>, job: Job)
    requires i <= |results|
    requires forall j :: i <= j < |results| ==> !Eligible(results[j], job.command)
    ensures RunFrom(results, i, calls, job) == WorkerRun(results, calls, false)
    decreases |results| - i
  {
    if i < |results| {
      NoEligibleChangesNothing(results, i + 1, calls, job);
    }
  }

  /** Once the manager reports no scripts waiting for the command, the worker
      stops taking results up: it changes none and runs no script. */
  lemma {:induction false} NoScriptsWaitingChangesNothing(results: seq<GoobiScriptResult>, i: nat, calls: seq<ScriptCall>, job: Job)
    requires i <= |results|
    requires forall n :: i <= n < |results| ==> !job.env.scriptsWaiting(n)
    ensures RunFrom(results, i, calls, job) == WorkerRun(results, calls, false)
    decreases |results| - i
  {
    if i < |results| {
      NoScriptsWaitingChangesNothing(results, i + 1, calls, job);
    }
  }
}

=== FILE: java_lang.dfy ===
/**
 The pieces of java.lang the modelled classes lean on: null references,
 exceptions, and the java.lang.String / java.lang.Integer operations they
 call (indexOf, substring, trim, split, Integer.toString, equalsIgnoreCase).
 Each is written out with the JDK's own edge cases, and the ones whose
 results the model reasons about come with an inverse or a characterisation.
 */
module JavaLang {

  /** A Java reference that may be null: `None` is null. */
  datatype Option<+T> = None | Some(value: T)

  /** A call that either returns a value or throws. */
  datatype Result<+T, +E> = Success(value: T) | Failure(error: E)

  /* ---------------------------------------------------------------- search */

  /** String.indexOf(char): the first position of `c` in `s`, or -1. */
  function IndexOf(s: string, c: char): (i: int)
    ensures c !in s <==> i == -1
    ensures c in s ==> 0 <= i < |s| && s[i] == c && c !in s[..i]
    decreases |s|
  {
    if |s| == 0 then -1
    else if s[0] == c then 0
    else
      var j := IndexOf(s[1..], c);
      assert c in s ==> c in s[1..] by {
        if c in s {
          var k :| 0 <= k < |s| && s[k] == c;
          assert s[1..][k - 1] == c;
        }
      }
      if j < 0 then -1
      else
        assert s[..j + 1] == [s[0]] + s[1..][..j];
        j + 1
  }

  /** `s.substring(s.indexOf(c) + 1)`: everything after the first `c`, or all
      of `s` when `c` does not occur (indexOf's -1 turns into substring(0)). */
  function AfterFirst(s: string, c: char): (r: string)
    ensures c !in s ==> r == s
    ensures c in s ==> |r| < |s|
    ensures c in s ==> s == s[..|s| - |r| - 1] + [c] + r && c !in s[..|s| - |r| - 1]
  {
    var i := IndexOf(s, c);
    assert c in s ==> s == s[..i] + [c] + s[i + 1..];
    s[i + 1..]
  }

  /** `s.substring(0, s.indexOf(c))` where `c` occurs: the text before the
      first `c`; all of `s` when there is none. */
  function BeforeFirst(s: string, c: char): (r: string)
    ensures c !in s ==> r == s
    ensures c in s ==> r + [c] + AfterFirst(s, c) == s && c !in r
  {
    if c in s then
      var i := IndexOf(s, c);
      assert s == s[..i] + [c] + s[i + 1..];
      s[..i]
    else s
  }

  /** The first `c` of `prefix + [c] + r` is the one after `prefix` when
      `prefix` has no `c`. */
  lemma IndexOfConcat(prefix: string, c: char, r: string)
    requires c !in prefix
    ensures IndexOf(prefix + [c] + r, c) == |prefix|
  {
    var s := prefix + [c] + r;
    assert s[|prefix|] == c;
    assert forall k :: 0 <= k < |prefix| ==> s[k] == prefix[k];
  }

  /* ------------------------------------------------------------------ trim */

  /** String.trim() removes every leading and trailing char at or below U+0020. */
  predicate IsBlank(c: char) { c <= ' ' }

  /** No blank char at either end: what String.trim() returns. */
  predicate IsTrimmed(s: string) {
    s == [] || (!IsBlank(s[0]) && !IsBlank(s[|s| - 1]))
  }

  /** Java's `st`: how many blank chars the string starts with. */
  function LeadingBlanks(s: string): (st: nat)
    ensures st <= |s|
    ensures forall k :: 0 <= k < st ==> IsBlank(s[k])
    ensures st < |s| ==> !IsBlank(s[st])
    decreases |s|
  {
    if |s| > 0 && IsBlank(s[0]) then
      var n := LeadingBlanks(s[1..]);
      assert forall k :: 1 <= k < n + 1 ==> s[k] == s[1..][k - 1];
      n + 1
    else 0
  }

  /** Java's `len` before it is clamped: where the trailing blanks begin. */
  function TrailingBlanksFrom(s: string): (len: nat)
    ensures len <= |s|
    ensures forall k :: len <= k < |s| ==> IsBlank(s[k])
    ensures len == 0 || !IsBlank(s[len - 1])
    decreases |s|
  {
    if |s| > 0 && IsBlank(s[|s| - 1]) then TrailingBlanksFrom(s[..|s| - 1]) else |s|
  }

  /** String.trim(): `substring(st, len)`, where `st` skips the leading
      blanks and `len` backs over the trailing ones but never below `st`. */
  function Trim(s: string): (r: string)
    ensures IsTrimmed(r)
    ensures r == [] <==> forall k :: 0 <= k < |s| ==> IsBlank(s[k])
  {
    var st := LeadingBlanks(s);
    var len := TrailingBlanksFrom(s);
    if len <= st then [] else s[st..len]
  }

  /** Trimming brings in no character the string did not have. */
  lemma TrimAvoids(s: string, c: char)
    requires c !in s
    ensures c !in Trim(s)
  {
  }

  /** Trim removes exactly the blank ends: the result is a slice of `s` with
      nothing but blanks before and after it. */
  lemma TrimRemovesBlankEnds(s: string)
    ensures exists i :: BlankAround(s, i, Trim(s))
  {
    var st := LeadingBlanks(s);
    var len := TrailingBlanksFrom(s);
    if len <= st {
      assert BlankAround(s, |s|, Trim(s));
    } else {
      assert BlankAround(s, st, Trim(s));
    }
  }

  /** `r` sits at position `i` of `s` with nothing but blanks around it. */
  predicate BlankAround(s: string, i: int, r: string) {
    && 0 <= i <= |s| - |r|
    && r == s[i..i + |r|]
    && (forall k :: 0 <= k < i ==> IsBlank(s[k]))
    && (forall k :: i + |r| <= k < |s| ==> IsBlank(s[k]))
  }

  /* ----------------------------------------------------------------- split */

  /** Every piece of `s` between occurrences of `c`, empty pieces included. */
  function SplitOn(s: string, c: char): (pieces: seq<string>)
    ensures |pieces| >= 1
    ensures forall k :: 0 <= k < |pieces| ==> c !in pieces[k]
    decreases |s|
  {
    var i := IndexOf(s, c);
    if i < 0 then [s] else [s[..i]] + SplitOn(s[i + 1..], c)
  }

  /** String.join with a one-char separator: the inverse of SplitOn. */
  function Join(pieces: seq<string>, c: char): string
    requires |pieces| >= 1
  {
    if |pieces| == 1 then pieces[0] else pieces[0] + [c] + Join(pieces[1..], c)
  }

  /** Splitting and re-joining gives back the original string. */
  lemma {:induction false} JoinSplit(s: string, c: char)
    ensures Join(SplitOn(s, c), c) == s
    decreases |s|
  {
    var i := IndexOf(s, c);
    if i >= 0 {
      JoinSplit(s[i + 1..], c);
      JoinCons(s[..i], SplitOn(s[i + 1..], c), c);
      SplitAround(s, i);
    }
  }

  lemma JoinCons(x: string, rest: seq<string>, c: char)
    requires |rest| >= 1
    ensures Join([x] + rest, c) == x + [c] + Join(rest, c)
  {
    SingletonTail(x, rest);
  }

  /** Joining pieces that do not contain the separator and splitting again
      gives back the pieces. */
  lemma {:induction false} SplitJoin(pieces: seq<string>, c: char)
    requires |pieces| >= 1
    requires forall k :: 0 <= k < |pieces| ==> c !in pieces[k]
    ensures SplitOn(Join(pieces, c), c) == pieces
    decreases |pieces|
  {
    if |pieces| > 1 {
      var rest := Join(pieces[1..], c);
      var s := pieces[0] + [c] + rest;
      assert Join(pieces, c) == s;
      SplitOnConcat(pieces[0], c, rest);
      SplitJoin(pieces[1..], c);
    } else {
      assert IndexOf(pieces[0], c) == -1;
    }
  }

  lemma SplitOnConcat(prefix: string, c: char, rest: string)
    requires c !in prefix
    ensures SplitOn(prefix + [c] + rest, c) == [prefix] + SplitOn(rest, c)
  {
    var s := prefix + [c] + rest;
    IndexOfConcat(prefix, c, rest);
    assert s[..|prefix|] == prefix;
    assert s[|prefix| + 1..] == rest;
  }

  /** Removes the empty strings at the end of a split result. */
  function DropTrailingEmpty(pieces: seq<string>): (r: seq<string>)
    ensures |r| <= |pieces| && r == pieces[..|r|]
    ensures r == [] || r[|r| - 1] != []
    ensures forall k :: |r| <= k < |pieces| ==> pieces[k] == []
    decreases |pieces|
  {
    if |pieces| > 0 && pieces[|pieces| - 1] == [] then DropTrailingEmpty(pieces[..|pieces| - 1])
    else pieces
  }

  /** String.split(String.valueOf(c)) with the default limit 0: a string
      without `c` comes back whole; otherwise the pieces, with trailing empty
      pieces removed (so a string of separators only gives no pieces). */
  function JavaSplit(s: string, c: char): (r: seq<string>)
    ensures forall k :: 0 <= k < |r| ==> c !in r[k]
  {
    if c !in s then [s] else DropTrailingEmpty(SplitOn(s, c))
  }

  /** The trimmed, non-blank pieces, in order: the loop body
      `if (!p.trim().isEmpty()) args.add(p.trim())` over a split result. */
  function KeepNonBlank(pieces: seq<string>): (r: seq<string>)
    ensures |r| <= |pieces|
    decreases |pieces|
  {
    if pieces == [] then [] else KeepOne(pieces[0]) + KeepNonBlank(pieces[1..])
  }

  /** Every kept piece is non-empty and trimmed. */
  lemma {:induction false} KeepNonBlankTrimmed(pieces: seq<string>)
    ensures forall k :: 0 <= k < |KeepNonBlank(pieces)| ==>
              KeepNonBlank(pieces)[k] != [] && IsTrimmed(KeepNonBlank(pieces)[k])
    decreases |pieces|
  {
    if pieces != [] {
      KeepNonBlankTrimmed(pieces[1..]);
    }
  }

  /** What the loop body adds for one piece: its trimmed text, unless blank. */
  function KeepOne(piece: string): (r: seq<string>)
    ensures |r| <= 1
    ensures |r| == 1 ==> r[0] != [] && IsTrimmed(r[0])
  {
    var t := Trim(piece);
    if t == [] then [] else [t]
  }

  /** `x` is the trimmed text of one of `pieces`. */
  predicate TrimOfSome(x: string, pieces: seq<string>) {
    exists j :: 0 <= j < |pieces| && x == Trim(pieces[j])
  }

  /** Every kept argument is the trimmed text of some piece. */
  lemma {:induction false} KeptComeFromPieces(pieces: seq<string>)
    ensures forall k :: 0 <= k < |KeepNonBlank(pieces)| ==> TrimOfSome(KeepNonBlank(pieces)[k], pieces)
    decreases |pieces|
  {
    if pieces != [] {
      var h := KeepOne(pieces[0]);
      var tail := KeepNonBlank(pieces[1..]);
      var r := KeepNonBlank(pieces);
      KeptComeFromPieces(pieces[1..]);
      assert r == h + tail;
      forall k | 0 <= k < |r|
        ensures TrimOfSome(r[k], pieces)
      {
        if k < |h| {
          assert r[k] == Trim(pieces[0]);
        } else {
          assert r[k] == tail[k - |h|];
          TrimOfSomeTail(r[k], pieces);
        }
      }
    }
  }

  lemma TrimOfSomeTail(x: string, pieces: seq<string>)
    requires pieces != [] && TrimOfSome(x, pieces[1..])
    ensures TrimOfSome(x, pieces)
  {
    var j :| 0 <= j < |pieces[1..]| && x == Trim(pieces[1..][j]);
    assert pieces[j + 1] == pieces[1..][j];
  }

  /** Every piece that is not blank has its trimmed text kept. */
  lemma {:induction false} NonBlankAreKept(pieces: seq<string>)
    ensures forall j :: 0 <= j < |pieces| && Trim(pieces[j]) != [] ==> Trim(pieces[j]) in KeepNonBlank(pieces)
    decreases |pieces|
  {
    if pieces != [] {
      var rest := pieces[1..];
      var r := KeepNonBlank(pieces);
      NonBlankAreKept(rest);
      assert r == KeepOne(pieces[0]) + KeepNonBlank(rest);
      forall j | 0 <= j < |pieces| && Trim(pieces[j]) != []
        ensures Trim(pieces[j]) in r
      {
        if j == 0 {
          assert r[0] == Trim(pieces[0]);
        } else {
          assert pieces[j] == rest[j - 1];
        }
      }
    }
  }

  lemma {:induction false} KeepNonBlankAppend(a: seq<string>, b: seq<string>)
    ensures KeepNonBlank(a + b) == KeepNonBlank(a) + KeepNonBlank(b)
    decreases |a|
  {
    if a == [] {
      assert a + b == b;
    } else {
      ConsAppend(a, b);
      KeepNonBlankAppend(a[1..], b);
      AppendAssoc(KeepOne(a[0]), KeepNonBlank(a[1..]), KeepNonBlank(b));
    }
  }

  /** The pieces Java's split drops would have been dropped as blank anyway:
      the arguments are the non-blank pieces of the complete split. */
  lemma JavaSplitKeepsNonBlank(s: string, c: char)
    ensures KeepNonBlank(JavaSplit(s, c)) == KeepNonBlank(SplitOn(s, c))
  {
    if c !in s {
      assert IndexOf(s, c) == -1;
    } else {
      DropTrailingKeepsNonBlank(SplitOn(s, c));
    }
  }

  lemma DropTrailingKeepsNonBlank(pieces: seq<string>)
    ensures KeepNonBlank(DropTrailingEmpty(pieces)) == KeepNonBlank(pieces)
  {
    var n := |DropTrailingEmpty(pieces)|;
    TakeDrop(pieces, n);
    TrailingAllEmpty(pieces, n);
    AllEmptyKeepsNothing(pieces[n..]);
    KeepNonBlankAppend(pieces[..n], pieces[n..]);
  }

  lemma TrailingAllEmpty(pieces: seq<string>, n: int)
    requires 0 <= n <= |pieces|
    requires forall k :: n <= k < |pieces| ==> pieces[k] == []
    ensures forall k :: 0 <= k < |pieces[n..]| ==> pieces[n..][k] == []
  {
    forall k | 0 <= k < |pieces[n..]|
      ensures pieces[n..][k] == []
    {
      assert pieces[n..][k] == pieces[n + k];
    }
  }

  lemma {:induction false} AllEmptyKeepsNothing(pieces: seq<string>)
    requires forall k :: 0 <= k < |pieces| ==> pieces[k] == []
    ensures KeepNonBlank(pieces) == []
    decreases |pieces|
  {
    if pieces != [] {
      AllEmptyKeepsNothing(pieces[1..]);
    }
  }

  /* ------------------------------------------------------------- sequences */

  lemma AppendAssoc<T>(x: seq<T>, y: seq<T>, z: seq<T>)
    ensures (x + y) + z == x + (y + z)
  {
  }

  lemma ConsAppend<T>(a: seq<T>, b: seq<T>)
    requires a != []
    ensures (a + b)[0] == a[0] && (a + b)[1..] == a[1..] + b && a + b != []
  {
  }

  lemma TakeDrop<T>(s: seq<T>, n: int)
    requires 0 <= n <= |s|
    ensures s[..n] + s[n..] == s
  {
  }

  lemma SingletonTail<T>(x: T, rest: seq<T>)
    ensures ([x] + rest)[0] == x && ([x] + rest)[1..] == rest
  {
  }

  lemma SplitAround<T>(s: seq<T>, i: int)
    requires 0 <= i < |s|
    ensures s == s[..i] + [s[i]] + s[i + 1..]
  {
  }

  /* --------------------------------------------------------------- decimal */

  predicate IsDigit(c: char) { '0' <= c <= '9' }

  predicate IsAsciiLetter(c: char) { 'a' <= c <= 'z' || 'A' <= c <= 'Z' }

  function DigitChar(d: nat): (c: char)
    requires d < 10
    ensures IsDigit(c) && c as int - '0' as int == d
  {
    ('0' as int + d) as char
  }

  function NatToDecimal(n: nat): (s: string)
    ensures |s| >= 1
    ensures forall k :: 0 <= k < |s| ==> IsDigit(s[k])
    ensures s[0] == '0' ==> n == 0 && s == "0"
  {
    if n < 10 then [DigitChar(n)] else NatToDecimal(n / 10) + [DigitChar(n % 10)]
  }

  /** Integer.toString(n), which Java uses for `"text" + n`: an optional
      minus sign and the decimal digits without leading zeros. */
  function IntToDecimal(n: int): (s: string)
    ensures |s| >= 1
    ensures s[0] == '-' <==> n < 0
    ensures IsDigit(s[0]) || s[0] == '-'
    ensures forall k :: 1 <= k < |s| ==> IsDigit(s[k])
  {
    if n < 0 then "-" + NatToDecimal(-n) else NatToDecimal(n)
  }

  /** Reads decimal digits back: the inverse of NatToDecimal. */
  function ParseNat(s: string): int
    decreases |s|
  {
    if s == [] then 0 else 10 * ParseNat(s[..|s| - 1]) + (s[|s| - 1] as int - '0' as int)
  }

  /** Integer.parseInt for the strings IntToDecimal produces. */
  function ParseInt(s: string): int {
    if |s| > 0 && s[0] == '-' then -ParseNat(s[1..]) else ParseNat(s)
  }

  lemma {:induction false} NatDecimalRoundTrip(n: nat)
    ensures ParseNat(NatToDecimal(n)) == n
  {
    if n >= 10 {
      var s := NatToDecimal(n);
      assert s[..|s| - 1] == NatToDecimal(n / 10);
      NatDecimalRoundTrip(n / 10);
    }
  }

  /** Rendering an int in decimal loses nothing. */
  lemma DecimalRoundTrip(n: int)
    ensures ParseInt(IntToDecimal(n)) == n
  {
    if n < 0 {
      assert IntToDecimal(n)[1..] == NatToDecimal(-n);
      NatDecimalRoundTrip(-n);
    } else {
      NatDecimalRoundTrip(n);
    }
  }

  /** Distinct ints have distinct decimal renderings. */
  lemma DecimalInjective(a: int, b: int)
    requires IntToDecimal(a) == IntToDecimal(b)
    ensures a == b
  {
    DecimalRoundTrip(a);
    DecimalRoundTrip(b);
  }

  /* ------------------------------------------------------------------ case */

  function ToUpperAscii(c: char): char {
    if 'a' <= c <= 'z' then (c as int - 32) as char else c
  }

  /** The string with its ASCII letters in upper case. */
  function UpperAscii(s: string): (r: string)
    ensures |r| == |s|
    ensures forall k :: 0 <= k < |s| ==> r[k] == ToUpperAscii(s[k])
    decreases |s|
  {
    if s == [] then [] else [ToUpperAscii(s[0])] + UpperAscii(s[1..])
  }

  /** String.equalsIgnoreCase with an argument that may be null, folding the
      ASCII letters: false for null, otherwise equal upper-case forms. */
  predicate EqualsIgnoreCase(a: string, b: Option<string>): (eq: bool)
    ensures b.None? ==> !eq
    ensures b.Some? ==> (eq <==> UpperAscii(a) == UpperAscii(b.value))
  {
    && b.Some?
    && |a| == |b.value|
    && forall k :: 0 <= k < |a| ==> ToUpperAscii(a[k]) == ToUpperAscii(b.value[k])
  }

  /** Ignoring case is an equivalence on non-null strings. */
  lemma EqualsIgnoreCaseIsEquivalence(a: string, b: string, c: string)
    ensures EqualsIgnoreCase(a, Some(a))
    ensures EqualsIgnoreCase(a, Some(b)) ==> EqualsIgnoreCase(b, Some(a))
    ensures EqualsIgnoreCase(a, Some(b)) && EqualsIgnoreCase(b, Some(c)) ==> EqualsIgnoreCase(a, Some(c))
  {
  }
}

=== FILE: search_column.dfy ===
/**
 SearchColumn: one column of the process search, named by a value of the
 form `<family>.<field>` (for instance `prozesseeigenschaften.Titel`), and
 the SQL fragments the search builds from it — the table alias, the table
 type, the column, the join clause and the extra joined table. `order` is
 the column's position in the search form; it numbers the aliases of the
 property and metadata tables so that several columns over the same table
 do not collide.
 */
module Search {
  import opened JavaLang

  /** The six families a value can start with, in the order the getters
      test them. */
  datatype Family =
    | Prozesse
    | Projekte
    | ProzesseEigenschaften
    | VorlagenEigenschaften
    | WerkstueckeEigenschaften
    | Metadata

  function FamilyName(f: Family): string {
    match f
    case Prozesse => "prozesse"
    case Projekte => "projekte"
    case ProzesseEigenschaften => "prozesseeigenschaften"
    case VorlagenEigenschaften => Owner(f) + "eigenschaften"
    case WerkstueckeEigenschaften => Owner(f) + "eigenschaften"
    case Metadata => "metadata"
  }

  /** The table that owns the rows of a template or workpiece property table:
      `vorlageneigenschaften` holds properties of `vorlagen`. */
  function Owner(f: Family): string
    requires f == VorlagenEigenschaften || f == WerkstueckeEigenschaften
  {
    if f == VorlagenEigenschaften then "vorlagen" else "werkstuecke"
  }

  /** The text a value starts with to belong to the family. */
  function Prefix(f: Family): string {
    FamilyName(f) + "."
  }

  /** Property and metadata tables are joined once per column under an alias
      numbered with the column's order; the two base tables are not. */
  predicate Numbered(f: Family) {
    !(f.Prozesse? || f.Projekte?)
  }

  /** A SearchColumn object; `value` may be set to null. */
  datatype SearchColumn = SearchColumn(value: Option<string>, order: int)

  /** The family of a value, by the source's chain of startsWith tests. */
  function FamilyOf(value: Option<string>): (f: Option<Family>)
    ensures f.Some? ==> value.Some? && Prefix(f.value) <= value.value
    ensures f.None? ==> value.None? || forall g :: !(Prefix(g) <= value.value)
  {
    match value
    case None => None
    case Some(v) =>
      if v == "" then None
      else if Prefix(Prozesse) <= v then Some(Prozesse)
      else if Prefix(Projekte) <= v then Some(Projekte)
      else if Prefix(ProzesseEigenschaften) <= v then Some(ProzesseEigenschaften)
      else if Prefix(VorlagenEigenschaften) <= v then Some(VorlagenEigenschaften)
      else if Prefix(WerkstueckeEigenschaften) <= v then Some(WerkstueckeEigenschaften)
      else if Prefix(Metadata) <= v then Some(Metadata)
      else None
  }

  predicate AllLetters(s: string) {
    forall k :: 0 <= k < |s| ==> IsAsciiLetter(s[k])
  }

  lemma FamilyNameFacts(f: Family, g: Family)
    ensures AllLetters(FamilyName(f)) && |FamilyName(f)| > 0
    ensures FamilyName(f) == FamilyName(g) ==> f == g
  {
    FamilyNameLetters(f);
    if FamilyName(f) == FamilyName(g) {
      assert |FamilyName(f)| == |FamilyName(g)|;
      assert FamilyName(f)[0] == FamilyName(g)[0] && FamilyName(f)[3] == FamilyName(g)[3];
    }
  }

  lemma FamilyNameLetters(f: Family)
    ensures AllLetters(FamilyName(f)) && |FamilyName(f)| > 0
  {
    match f
    case Prozesse => LowerLetters("prozesse");
    case Projekte => LowerLetters("projekte");
    case ProzesseEigenschaften => LowerLetters("prozesseeigenschaften");
    case VorlagenEigenschaften =>
      LowerLetters("vorlagen");
      LowerLetters("eigenschaften");
      LettersConcat("vorlagen", "eigenschaften");
    case WerkstueckeEigenschaften =>
      LowerLetters("werkstuecke");
      LowerLetters("eigenschaften");
      LettersConcat("werkstuecke", "eigenschaften");
    case Metadata => LowerLetters("metadata");
  }

  lemma LowerLetters(s: string)
    requires forall k :: 0 <= k < |s| ==> 'a' <= s[k] <= 'z'
    ensures AllLetters(s)
  {
  }

  lemma LettersConcat(a: string, b: string)
    requires AllLetters(a) && AllLetters(b)
    ensures AllLetters(a + b)
  {
  }

  /** No family prefix is a prefix of another. */
  lemma PrefixOfPrefix(f: Family, g: Family)
    requires Prefix(f) <= Prefix(g)
    ensures f == g
  {
    var n := |Prefix(f)|;
    FamilyNameFacts(f, g);
    FamilyNameFacts(g, f);
    assert Prefix(f)[n - 1] == Prefix(g)[n - 1] == '.';
    assert n == |Prefix(g)|;
    assert FamilyName(f) == Prefix(f)[..n - 1] == Prefix(g)[..n - 1] == FamilyName(g);
  }

  /** A value starts with at most one family prefix, so the order in which
      the getters test the prefixes does not matter. */
  lemma PrefixesExclusive(v: string, f: Family, g: Family)
    requires Prefix(f) <= v && Prefix(g) <= v
    ensures f == g
  {
    if |Prefix(f)| <= |Prefix(g)| {
      assert Prefix(f) == v[..|Prefix(f)|] == Prefix(g)[..|Prefix(f)|];
      PrefixOfPrefix(f, g);
    } else {
      assert Prefix(g) == v[..|Prefix(g)|] == Prefix(f)[..|Prefix(g)|];
      PrefixOfPrefix(g, f);
    }
  }

  /** The chain finds a family exactly when the value starts with its prefix. */
  lemma FamilyOfIffPrefix(v: string, f: Family)
    ensures FamilyOf(Some(v)) == Some(f) <==> Prefix(f) <= v
  {
    if Prefix(f) <= v {
      var g := FamilyOf(Some(v));
      assert g.Some?;
      PrefixesExclusive(v, f, g.value);
    }
  }

  /** Every value with a family contains a dot. */
  lemma FamilyMeansDot(value: Option<string>)
    ensures FamilyOf(value).Some? ==> '.' in value.value
  {
    if FamilyOf(value).Some? {
      var f := FamilyOf(value).value;
      assert value.value[|Prefix(f)| - 1] == '.';
    }
  }

  /** A value of a family is the family name, a dot and the field: the text
      before the first dot is the family name, the text after it the field. */
  lemma FamilyWord(v: string, f: Family)
    requires Prefix(f) <= v
    ensures BeforeFirst(v, '.') == FamilyName(f)
    ensures Prefix(f) + AfterFirst(v, '.') == v
  {
    FamilyNameLetters(f);
    assert '.' !in FamilyName(f) by {
      assert forall k :: 0 <= k < |FamilyName(f)| ==> IsAsciiLetter(FamilyName(f)[k]);
    }
    var rest := v[|Prefix(f)|..];
    assert v == FamilyName(f) + "." + rest;
    IndexOfConcat(FamilyName(f), '.', rest);
  }

  /** The text after the first dot of the value: the property or metadata
      name, or the column of a base table. */
  function FieldName(c: SearchColumn): (r: string)
    requires c.value.Some?
    ensures FamilyOf(c.value).Some? ==> Prefix(FamilyOf(c.value).value) + r == c.value.value
  {
    var v := c.value.value;
    match FamilyOf(c.value)
    case Some(f) => FamilyWord(v, f); AfterFirst(v, '.')
    case None => AfterFirst(v, '.')
  }

  /** The constructor: a column with an empty value. */
  function NewSearchColumn(order: int): (c: SearchColumn)
    ensures c.order == order
    ensures TableName(c) == "" && TableType(c) == "" && ColumnName(c) == ""
    ensures JoinClause(c) == "" && AdditionalTable(c) == ""
  {
    SearchColumn(Some(""), order)
  }

  /** getTableName: the alias the column's table is joined under, "" for a
      null, empty or unrecognised value. */
  function TableName(c: SearchColumn): (r: string)
    ensures r == "" <==> FamilyOf(c.value).None?
    ensures r != "" ==> FamilyName(FamilyOf(c.value).value) <= r
    ensures FamilyOf(c.value).Some? && !Numbered(FamilyOf(c.value).value) ==> r == BeforeFirst(c.value.value, '.')
    ensures FamilyOf(c.value).Some? && Numbered(FamilyOf(c.value).value) ==>
              r == BeforeFirst(c.value.value, '.') + IntToDecimal(c.order)
  {
    match FamilyOf(c.value)
    case None => ""
    case Some(f) =>
      FamilyWord(c.value.value, f);
      if Numbered(f) then FamilyName(f) + IntToDecimal(c.order) else FamilyName(f)
  }

  /** `n1 + s1 == n2 + s2` splits in one way only when the `n`s are letters
      and the `s`s are empty or start with something else. */
  lemma LettersThenOther(n1: string, s1: string, n2: string, s2: string)
    requires AllLetters(n1) && AllLetters(n2)
    requires s1 == [] || !IsAsciiLetter(s1[0])
    requires s2 == [] || !IsAsciiLetter(s2[0])
    requires n1 + s1 == n2 + s2
    ensures n1 == n2 && s1 == s2
  {
    var t := n1 + s1;
    assert forall k :: 0 <= k < |n1| ==> t[k] == n1[k];
    assert forall k :: 0 <= k < |n2| ==> t[k] == n2[k];
    assert |n1| < |t| ==> t[|n1|] == s1[0];
    assert |n2| < |t| ==> t[|n2|] == s2[0];
    assert |n1| == |n2|;
    assert n1 == t[..|n1|];
  }

  /** Distinct columns get distinct aliases: a non-empty table name gives
      back the column's family and, for a numbered family, its order. */
  lemma TableNameIdentifiesColumn(c1: SearchColumn, c2: SearchColumn)
    requires TableName(c1) == TableName(c2) != ""
    ensures FamilyOf(c1.value) == FamilyOf(c2.value)
    ensures Numbered(FamilyOf(c1.value).value) ==> c1.order == c2.order
  {
    var f1, f2 := FamilyOf(c1.value).value, FamilyOf(c2.value).value;
    var s1, s2 := AliasNumber(c1), AliasNumber(c2);
    FamilyNameFacts(f1, f2);
    FamilyNameFacts(f2, f1);
    LettersThenOther(FamilyName(f1), s1, FamilyName(f2), s2);
    if Numbered(f1) {
      DecimalInjective(c1.order, c2.order);
    }
  }

  /** What follows the family name in the alias: the order for a numbered
      family, nothing otherwise; never a letter. */
  function AliasNumber(c: SearchColumn): (s: string)
    requires FamilyOf(c.value).Some?
    ensures s == [] || !IsAsciiLetter(s[0])
    ensures TableName(c) == FamilyName(FamilyOf(c.value).value) + s
  {
    if Numbered(FamilyOf(c.value).value) then IntToDecimal(c.order) else ""
  }

  /** getTableType: the real table name followed by one space, before the
      alias; "" for the processes table and for unrecognised values. */
  function TableType(c: SearchColumn): (r: string)
    ensures r == "" <==> FamilyOf(c.value).None? || FamilyOf(c.value) == Some(Prozesse)
    ensures r != "" ==> r[|r| - 1] == ' ' && ' ' !in r[..|r| - 1]
    ensures r != "" ==> r[..|r| - 1] <= TableName(c)
    ensures r != "" ==> r == BeforeFirst(c.value.value, '.') + " "
  {
    match FamilyOf(c.value)
    case None => ""
    case Some(f) =>
      if f == Prozesse then ""
      else
        FamilyWord(c.value.value, f);
        FamilyNameFacts(f, f);
        assert ' ' !in FamilyName(f) by {
          assert forall k :: 0 <= k < |FamilyName(f)| ==> IsAsciiLetter(FamilyName(f)[k]);
        }
        var r := FamilyName(f) + " ";
        assert r[..|r| - 1] == FamilyName(f);
        r
  }

  /** getColumnName: the named column of a base table, `print` for metadata,
      `Wert` for every other dotted value — recognised or not — and "" when
      there is no dot. */
  function ColumnName(c: SearchColumn): (r: string)
    ensures c.value.None? || '.' !in c.value.value ==> r == ""
    ensures FamilyOf(c.value) == Some(Prozesse) || FamilyOf(c.value) == Some(Projekte) ==>
              Prefix(FamilyOf(c.value).value) + r == c.value.value
    ensures FamilyOf(c.value) == Some(Metadata) ==> r == "print"
    ensures (&& c.value.Some? && '.' in c.value.value
             && !(FamilyOf(c.value).Some? && FamilyOf(c.value).value in {Prozesse, Projekte, Metadata}))
            ==> r == "Wert"
  {
    FamilyMeansDot(c.value);
    match c.value
    case None => ""
    case Some(v) =>
      if v == "" || '.' !in v then ""
      else if Prefix(Prozesse) <= v || Prefix(Projekte) <= v then
        FamilyOfIffPrefix(v, Prozesse);
        FamilyOfIffPrefix(v, Projekte);
        FieldName(c)
      else if Prefix(Metadata) <= v then
        FamilyOfIffPrefix(v, Metadata);
        "print"
      else
        FamilyOfIffPrefix(v, Metadata);
        "Wert"
  }

  /** getJoinClause: the text that joins the column's table under its alias
      to the processes table, restricted to the named field for property and
      metadata tables; "" when nothing needs joining. Where the source spells
      out " prozesseeigenschaften " or "vorlagen vorlagen" + order, the model
      writes the same text as the table type or the additional table. */
  function JoinClause(c: SearchColumn): (r: string)
    ensures r == "" <==> FamilyOf(c.value).None? || FamilyOf(c.value) == Some(Prozesse)
    ensures FamilyOf(c.value) == Some(VorlagenEigenschaften) || FamilyOf(c.value) == Some(WerkstueckeEigenschaften) ==>
              AdditionalTable(c)[1..] + " ON prozesse.ProzesseID = " <= r
    ensures FamilyOf(c.value).Some? && Numbered(FamilyOf(c.value).value) ==> EndsWithQuoted(r, FieldName(c))
  {
    // The source first returns "" for an empty table name, which is the
    // case of no family.
    match FamilyOf(c.value)
    case None => ""
    case Some(Prozesse) => ""
    case Some(Projekte) => ProjectJoin(c)
    case Some(_) => QuotedJoin(JoinHead(c), JoinMiddle(c), FieldName(c))
  }

  /** The projects join: projects are tied to the process by project id. */
  function ProjectJoin(c: SearchColumn): (r: string)
    ensures r != ""
  {
    var t := TableName(c);
    " " + TableType(c) + t + " ON prozesse.ProjekteID = " + t + ".ProjekteID"
  }

  /** For a property or metadata column, the join text up to where the
      alias is tied to the process. */
  function JoinHead(c: SearchColumn): (r: string)
    requires FamilyOf(c.value).Some? && Numbered(FamilyOf(c.value).value)
    ensures FamilyOf(c.value) == Some(VorlagenEigenschaften) || FamilyOf(c.value) == Some(WerkstueckeEigenschaften) ==>
              r == AdditionalTable(c)[1..] + " ON prozesse.ProzesseID = "
  {
    var t := TableName(c);
    match FamilyOf(c.value).value
    case VorlagenEigenschaften => AdditionalTable(c)[1..] + " ON prozesse.ProzesseID = "
    case WerkstueckeEigenschaften => AdditionalTable(c)[1..] + " ON prozesse.ProzesseID = "
    case _ => " " + TableType(c) + t + " ON prozesse.ProzesseID = " + t
  }

  /** For a property or metadata column, the rest of the join text up to the
      quoted field name. */
  function JoinMiddle(c: SearchColumn): string
    requires FamilyOf(c.value).Some? && Numbered(FamilyOf(c.value).value)
  {
    var t, o := TableName(c), IntToDecimal(c.order);
    match FamilyOf(c.value).value
    case ProzesseEigenschaften => ".prozesseID AND " + t + ".Titel = "
    case Metadata => ".processid AND " + t + ".name = "
    case VorlagenEigenschaften =>
      "vorlagen" + o + ".ProzesseID LEFT JOIN vorlageneigenschaften " + t + " ON " + t
      + ".vorlagenID = vorlagen" + o + ".vorlagenID AND " + t + ".Titel ="
    case _ =>
      "werkstuecke" + o + ".ProzesseID LEFT JOIN werkstueckeeigenschaften " + t + " ON " + t
      + ".werkstueckeID = werkstuecke" + o + ".WerkstueckeID AND " + t + ".Titel ="
  }

  /** `r` ends with `field` in double quotes. */
  predicate EndsWithQuoted(r: string, field: string) {
    |r| >= |field| + 2 && r[|r| - |field| - 2..] == "\"" + field + "\""
  }

  /** A join whose last condition compares a name column with the field
      name in double quotes: `head + middle + "\"" + field + "\""`. */
  function QuotedJoin(head: string, middle: string, field: string): (r: string)
    ensures head <= r
    ensures EndsWithQuoted(r, field)
  {
    var r := head + middle + "\"" + field + "\"";
    assert r == head + (middle + "\"" + field + "\"");
    assert r == (head + middle) + ("\"" + field + "\"");
    r
  }

  /* The five joins as getJoinClause spells them out, with the alias and the
     field read from the value (TableName and FieldName pin those down). */

  /** The projects join: tied to the process by project id, no field. */
  lemma ProjectJoinText(c: SearchColumn)
    requires FamilyOf(c.value) == Some(Projekte)
    ensures var tn := TableName(c);
            JoinClause(c) == " projekte " + tn + " ON prozesse.ProjekteID = " + tn + ".ProjekteID"
  {
    assert TableType(c) == FamilyName(Projekte) + " ";
    SpacedWord(FamilyName(Projekte));
    TypeWords();
  }

  /** The process-property join: the alias is tied to the process id and its
      title column compared with the quoted field. */
  lemma ProcessPropertyJoinText(c: SearchColumn)
    requires FamilyOf(c.value) == Some(ProzesseEigenschaften)
    ensures var tn, f := TableName(c), AfterFirst(c.value.value, '.');
            JoinClause(c) == " prozesseeigenschaften " + tn + " ON prozesse.ProzesseID = " + tn
                             + ".prozesseID AND " + tn + ".Titel = \"" + f + "\""
  {
    assert TableType(c) == FamilyName(ProzesseEigenschaften) + " ";
    SpacedWord(FamilyName(ProzesseEigenschaften));
    assert JoinClause(c) == QuotedJoin(JoinHead(c), JoinMiddle(c), FieldName(c));
    QuotedJoinFlat(" " + TableType(c), TableName(c), " ON prozesse.ProzesseID = ", ".prozesseID AND ", ".Titel = ", FieldName(c));
    TypeWords();
    QuoteWords();
  }

  /** The metadata join: the alias is tied to the process id and its name
      column compared with the quoted field. */
  lemma MetadataJoinText(c: SearchColumn)
    requires FamilyOf(c.value) == Some(Metadata)
    ensures var tn, f := TableName(c), AfterFirst(c.value.value, '.');
            JoinClause(c) == " metadata " + tn + " ON prozesse.ProzesseID = " + tn
                             + ".processid AND " + tn + ".name = \"" + f + "\""
  {
    assert TableType(c) == FamilyName(Metadata) + " ";
    SpacedWord(FamilyName(Metadata));
    assert JoinClause(c) == QuotedJoin(JoinHead(c), JoinMiddle(c), FieldName(c));
    QuotedJoinFlat(" " + TableType(c), TableName(c), " ON prozesse.ProzesseID = ", ".processid AND ", ".name = ", FieldName(c));
    TypeWords();
    QuoteWords();
  }

  /** The template-property join: the templates of the process under
      `vorlagen<order>`, then their properties under the alias, left-joined
      by template id and compared by title. */
  lemma TemplateJoinText(c: SearchColumn)
    requires FamilyOf(c.value) == Some(VorlagenEigenschaften)
    ensures var tn, f, o := TableName(c), AfterFirst(c.value.value, '.'), IntToDecimal(c.order);
            JoinClause(c) == "vorlagen vorlagen" + o + " ON prozesse.ProzesseID = vorlagen" + o
                             + ".ProzesseID LEFT JOIN vorlageneigenschaften " + tn + " ON " + tn
                             + ".vorlagenID = vorlagen" + o + ".vorlagenID AND " + tn + ".Titel =\"" + f + "\""
  {
    var t, o := Owner(VorlagenEigenschaften), IntToDecimal(c.order);
    assert AdditionalTable(c) == " " + t + " " + t + o;
    DropLeadingSpace(t, o);
    assert JoinHead(c) == t + " " + t + o + " ON prozesse.ProzesseID = ";
    assert JoinClause(c) == QuotedJoin(JoinHead(c), JoinMiddle(c), FieldName(c));
    OwnerJoinFlat(t + " " + t, o, " ON prozesse.ProzesseID = ", t, ".ProzesseID LEFT JOIN vorlageneigenschaften ",
                  TableName(c), " ON ", ".vorlagenID = vorlagen", ".vorlagenID AND ", ".Titel =", FieldName(c));
    OwnerWords();
    QuoteWords();
  }

  /** The workpiece-property join, the same shape over `werkstuecke`. */
  lemma WorkpieceJoinText(c: SearchColumn)
    requires FamilyOf(c.value) == Some(WerkstueckeEigenschaften)
    ensures var tn, f, o := TableName(c), AfterFirst(c.value.value, '.'), IntToDecimal(c.order);
            JoinClause(c) == "werkstuecke werkstuecke" + o + " ON prozesse.ProzesseID = werkstuecke" + o
                             + ".ProzesseID LEFT JOIN werkstueckeeigenschaften " + tn + " ON " + tn
                             + ".werkstueckeID = werkstuecke" + o + ".WerkstueckeID AND " + tn + ".Titel =\"" + f + "\""
  {
    var t, o := Owner(WerkstueckeEigenschaften), IntToDecimal(c.order);
    assert AdditionalTable(c) == " " + t + " " + t + o;
    DropLeadingSpace(t, o);
    assert JoinHead(c) == t + " " + t + o + " ON prozesse.ProzesseID = ";
    assert JoinClause(c) == QuotedJoin(JoinHead(c), JoinMiddle(c), FieldName(c));
    OwnerJoinFlat(t + " " + t, o, " ON prozesse.ProzesseID = ", t, ".ProzesseID LEFT JOIN werkstueckeeigenschaften ",
                  TableName(c), " ON ", ".werkstueckeID = werkstuecke", ".WerkstueckeID AND ", ".Titel =", FieldName(c));
    OwnerWords();
    QuoteWords();
  }

  /** The literal pieces the joins are assembled from, merged as the source
      writes them: the table words, ... */
  lemma TypeWords()
    ensures " " + FamilyName(Projekte) + " " == " projekte "
    ensures " " + FamilyName(ProzesseEigenschaften) + " " == " prozesseeigenschaften "
    ensures " " + FamilyName(Metadata) + " " == " metadata "
  {
  }

  /** ... the owner tables of the template and workpiece joins, ... */
  lemma OwnerWords()
    ensures Owner(VorlagenEigenschaften) + " " + Owner(VorlagenEigenschaften) == "vorlagen vorlagen"
    ensures Owner(WerkstueckeEigenschaften) + " " + Owner(WerkstueckeEigenschaften) == "werkstuecke werkstuecke"
    ensures " ON prozesse.ProzesseID = " + Owner(VorlagenEigenschaften) == " ON prozesse.ProzesseID = vorlagen"
    ensures " ON prozesse.ProzesseID = " + Owner(WerkstueckeEigenschaften) == " ON prozesse.ProzesseID = werkstuecke"
  {
  }

  /** ... and the opening quote of the compared field. */
  lemma QuoteWords()
    ensures ".Titel = " + "\"" == ".Titel = \""
    ensures ".name = " + "\"" == ".name = \""
    ensures ".Titel =" + "\"" == ".Titel =\""
  {
  }

  lemma SpacedWord(w: string)
    ensures " " + (w + " ") == " " + w + " "
  {
  }

  lemma DropLeadingSpace(t: string, o: string)
    ensures (" " + t + " " + t + o)[1..] == t + " " + t + o
  {
  }

  /** Re-associates a property join assembled as head, middle and quoted
      field into one left-to-right concatenation. */
  lemma QuotedJoinFlat(p: string, tn: string, l1: string, l2: string, l3: string, f: string)
    ensures QuotedJoin(p + tn + l1 + tn, l2 + tn + l3, f) == p + tn + l1 + tn + l2 + tn + (l3 + "\"") + f + "\""
  {
    var h := p + tn + l1 + tn;
    AppendAssoc(h, l2 + tn, l3);
    AppendAssoc(h, l2, tn);
    AppendAssoc(h + l2 + tn, l3, "\"");
  }

  /** The same for the template and workpiece joins, whose head ends where
      the owner table's alias begins. */
  lemma OwnerJoinFlat(a: string, o: string, l1: string, t: string, l2: string, tn: string,
                      l3: string, l4: string, l5: string, l6: string, f: string)
    ensures QuotedJoin(a + o + l1, t + o + l2 + tn + l3 + tn + l4 + o + l5 + tn + l6, f)
            == a + o + (l1 + t) + o + l2 + tn + l3 + tn + l4 + o + l5 + tn + (l6 + "\"") + f + "\""
  {
  }

  /** getAdditionalTable with the null check the other getters have: the
      template or workpiece table a property join goes through, "" otherwise. */
  function AdditionalTable(c: SearchColumn): (r: string)
    ensures r != "" <==> FamilyOf(c.value) == Some(VorlagenEigenschaften) || FamilyOf(c.value) == Some(WerkstueckeEigenschaften)
    ensures r != "" ==> TableName(c) != "" && r[0] == ' '
    ensures r != "" ==>
              var w := BeforeFirst(c.value.value, '.');
              |w| >= 13 && var t := w[..|w| - 13];
              w == t + "eigenschaften" && r == " " + t + " " + t + IntToDecimal(c.order)
  {
    match FamilyOf(c.value)
    case Some(f) =>
      if f == VorlagenEigenschaften || f == WerkstueckeEigenschaften then
        FamilyWord(c.value.value, f);
        OwnerBeforeSuffix(Owner(f));
        " " + Owner(f) + " " + Owner(f) + IntToDecimal(c.order)
      else ""
    case None => ""
  }

  lemma OwnerTypeShape(ty: string, w: string, t: string)
    requires ty == w + " " && w == t + "eigenschaften"
    ensures |ty| >= 14 && ty[..|ty| - 14] == t && ty == t + "eigenschaften "
  {
    AppendAssoc(t, "eigenschaften", " ");
    assert ty[..|t|] == t;
  }

  /** Cutting "eigenschaften" off a property table's name gives its owner. */
  lemma OwnerBeforeSuffix(t: string)
    ensures (t + "eigenschaften")[..|t + "eigenschaften"| - 13] == t
  {
  }

  /** The alias is the table the type names, numbered with the order for the
      property and metadata tables. */
  lemma TableTypeNamesAlias(c: SearchColumn)
    requires FamilyOf(c.value).Some? && FamilyOf(c.value) != Some(Prozesse)
    ensures var ty := TableType(c);
            TableName(c) == ty[..|ty| - 1] + (if Numbered(FamilyOf(c.value).value) then IntToDecimal(c.order) else "")
  {
    var ty := TableType(c);
    assert ty[..|ty| - 1] == BeforeFirst(c.value.value, '.');
  }

  /** The additional table is the owner of the property table the type
      names: type `t + "eigenschaften "` goes with ` t t<order>`. */
  lemma AdditionalTableOwnsTableType(c: SearchColumn)
    requires FamilyOf(c.value) == Some(VorlagenEigenschaften) || FamilyOf(c.value) == Some(WerkstueckeEigenschaften)
    ensures var ty := TableType(c);
            && |ty| >= 14
            && var t := ty[..|ty| - 14];
               ty == t + "eigenschaften " && AdditionalTable(c) == " " + t + " " + t + IntToDecimal(c.order)
  {
    var f := FamilyOf(c.value).value;
    assert AdditionalTable(c) != "";
    var w := BeforeFirst(c.value.value, '.');
    var t := w[..|w| - 13];
    assert f != Prozesse;
    assert TableType(c) == w + " ";
    OwnerTypeShape(TableType(c), w, t);
  }

  /** The exception getAdditionalTable throws. */
  datatype NullPointerException = NullPointerException

  /** getAdditionalTable as written: it calls `value.startsWith` without the
      null check every other getter makes. */
  function AdditionalTableAsWritten(c: SearchColumn): (r: Result<string, NullPointerException>)
    ensures r.Failure? <==> c.value.None?
    ensures r.Success? ==> r.value == AdditionalTable(c)
  {
    match c.value
    case None => Failure(NullPointerException)
    case Some(_) => Success(AdditionalTable(c))
  }

  /** After setValue(null) every getter answers "" except getAdditionalTable,
      which throws. */
  lemma NullValueCounterexample(order: int)
    ensures var c := SearchColumn(None, order);
            && TableName(c) == "" && TableType(c) == "" && ColumnName(c) == "" && JoinClause(c) == ""
            && AdditionalTableAsWritten(c).Failure?
            && AdditionalTable(c) == ""
  {
  }
}

=== FILE: shell_script.dfy ===
/**
 ShellScript: running one external program with a command line built from a
 list of arguments, and the two static helpers that turn a caller's input
 into such a run — `callShell`, given the tokens, and `legacyCallShell2`,
 given one command string it splits itself.

 The file system and the operating system are parameters: `fileExists`
 answers StorageProvider.isFileExists, and a `Launcher` runs one command
 line to completion and reports what the process wrote and how it ended.
 */
module Shell {
  import opened JavaLang

  /** ShellScript.ERRORLEVEL_ERROR: the level the helpers report when the
      script wrote to stderr or its file could not be found. */
  const ERRORLEVEL_ERROR: int := 1

  /** The checked exceptions the class throws or catches. */
  datatype Exception =
    | FileNotFoundException(message: string)
    | IOException(message: string)
    | InterruptedException

  /** What the operating system makes of one command line: either starting
      the process (or reading its streams) failed, or both streams were read
      to the end as lines and waitFor() then returned the exit code, or was
      interrupted (`exitCode == None`). */
  datatype ProcessRun =
    | StartFailed(message: string)
    | Drained(stdOut: seq<string>, stdErr: seq<string>, exitCode: Option<int>)

  type Launcher = seq<string> -> ProcessRun

  /** One ShellScript object. The channels and the level stay null until a
      run has produced them. */
  datatype ShellScript = ShellScript(
    command: string,
    stdOut: Option<seq<string>>,
    stdErr: Option<seq<string>>,
    errorLevel: Option<int>)

  /** The constructor: refuses an executable that does not exist. */
  function NewShellScript(executable: string, fileExists: string -> bool): (r: Result<ShellScript, Exception>)
    ensures r.Success? <==> fileExists(executable)
    ensures r.Success? ==> r.value.command == executable
    ensures r.Success? ==> r.value.stdOut.None? && r.value.stdErr.None? && r.value.errorLevel.None?
    ensures r.Failure? ==> r.error.FileNotFoundException?
  {
    if !fileExists(executable) then
      Failure(FileNotFoundException("Could not find executable: " + executable))
    else
      Success(ShellScript(executable, None, None, None))
  }

  /** The call sequence handed to ProcessBuilder: the command, then the
      arguments, if any, each as its own token. */
  function CommandLine(command: string, args: Option<seq<string>>): (argv: seq<string>)
    ensures |argv| >= 1 && argv[0] == command
    ensures args.None? ==> |argv| == 1
    ensures args.Some? ==> argv[1..] == args.value
  {
    [command] + match args { case None => [] case Some(a) => a }
  }

  /** The outcome of `run`: the object afterwards, what `run` returned or
      threw, and the command line it launched. */
  datatype RunOutcome = RunOutcome(script: ShellScript, result: Result<int, Exception>, launched: seq<string>)

  /** ShellScript.run(args); `run()` is `Run(s, None, launch)`. */
  function Run(s: ShellScript, args: Option<seq<string>>, launch: Launcher): (r: RunOutcome)
    ensures |r.launched| >= 1 && r.launched[0] == s.command
    ensures r.launched[1..] == (if args.None? then [] else args.value)
    ensures r.script.command == s.command
    ensures r.result.Success? <==> launch(r.launched).Drained? && launch(r.launched).exitCode.Some?
    ensures r.result.Success? ==>
              && r.result.value == launch(r.launched).exitCode.value
              && r.script.errorLevel == Some(r.result.value)
              && r.script.stdOut == Some(launch(r.launched).stdOut)
              && r.script.stdErr == Some(launch(r.launched).stdErr)
    ensures r.result.Failure? ==> r.script.errorLevel == s.errorLevel
  {
    var argv := CommandLine(s.command, args);
    match launch(argv)
    case StartFailed(msg) =>
      RunOutcome(s, Failure(IOException(msg)), argv)
    case Drained(out, err, None) =>
      RunOutcome(s.(stdOut := Some(out), stdErr := Some(err)), Failure(InterruptedException), argv)
    case Drained(out, err, Some(code)) =>
      RunOutcome(ShellScript(s.command, Some(out), Some(err), Some(code)), Success(code), argv)
  }

  /** The level both helpers report after a run: any line on stderr turns the
      exit code into ERRORLEVEL_ERROR. */
  function ReportedLevel(exitCode: int, stdErr: seq<string>): (level: int)
    ensures |stdErr| > 0 ==> level == ERRORLEVEL_ERROR
    ensures |stdErr| == 0 ==> level == exitCode
  {
    if |stdErr| > 0 then ERRORLEVEL_ERROR else exitCode
  }

  /** What a helper returns, or throws, once the program has been launched:
      the reference the helpers' contracts are stated against. */
  function Outcome(run: ProcessRun): Result<int, Exception> {
    match run
    case StartFailed(msg) => Failure(IOException(msg))
    case Drained(_, err, None) => Failure(InterruptedException)
    case Drained(_, err, Some(code)) => Success(if |err| > 0 then ERRORLEVEL_ERROR else code)
  }

  /** A helper's result and the command line it launched, if it launched one. */
  datatype ShellCall = ShellCall(result: Result<int, Exception>, launched: Option<seq<string>>)

  /** The shared tail of both helpers: construct, run, then apply the stderr
      rule; a missing file is caught and reported as ERRORLEVEL_ERROR. */
  function Execute(scriptname: string, args: Option<seq<string>>, fileExists: string -> bool, launch: Launcher): (r: ShellCall)
    ensures !fileExists(scriptname) ==> r == ShellCall(Success(ERRORLEVEL_ERROR), None)
    ensures fileExists(scriptname) ==> r.launched == Some(CommandLine(scriptname, args))
    ensures fileExists(scriptname) ==> r.result == Outcome(launch(CommandLine(scriptname, args)))
  {
    match NewShellScript(scriptname, fileExists)
    case Failure(_) => ShellCall(Success(ERRORLEVEL_ERROR), None)
    case Success(s) =>
      var ran := Run(s, args, launch);
      var result := match ran.result
        case Failure(e) => Failure(e)
        case Success(code) => Success(ReportedLevel(code, ran.script.stdErr.value));
      ShellCall(result, Some(ran.launched))
  }

  /** ShellScript.callShell: the first token names the script, the rest are
      its arguments (none at all, rather than an empty list, for a single
      token). The launched command line is exactly the token list. */
  function CallShell(parameter: seq<string>, fileExists: string -> bool, launch: Launcher): (r: ShellCall)
    ensures parameter == [] ==> r == ShellCall(Success(0), None)
    ensures parameter != [] && !fileExists(parameter[0]) ==> r == ShellCall(Success(ERRORLEVEL_ERROR), None)
    ensures parameter != [] && fileExists(parameter[0]) ==>
              r.launched == Some(parameter) && r.result == Outcome(launch(parameter))
  {
    if parameter == [] then ShellCall(Success(0), None)
    else
      var rest := if |parameter| > 1 then Some(parameter[1..]) else None;
      assert CommandLine(parameter[0], rest) == parameter;
      Execute(parameter[0], rest, fileExists, launch)
  }

  /* -------------------------------------------------- legacy single string */

  /** The split of the legacy command string at its first space into the
      script name and the parameter text. */
  function LegacySplit(command: string): (parts: (string, string))
    ensures ' ' in command ==> parts.0 + " " + parts.1 == command && ' ' !in parts.0
    ensures ' ' !in command ==> parts.0 == command && parts.1 == ""
  {
    if ' ' in command then (BeforeFirst(command, ' '), AfterFirst(command, ' ')) else (command, "")
  }

  /** The split is the only one that puts no space in the script name. */
  lemma LegacySplitUnique(command: string, scriptname: string, paramList: string)
    requires ' ' !in scriptname
    requires scriptname + " " + paramList == command
    ensures LegacySplit(command) == (scriptname, paramList)
  {
    IndexOfConcat(scriptname, ' ', paramList);
    assert command[..|scriptname|] == scriptname;
  }

  /** The separator of the legacy parameter text: the double quote when there
      is one, otherwise the space. */
  function LegacySeparator(paramList: string): char {
    if '"' in paramList then '"' else ' '
  }

  /** The legacy arguments: an empty parameter text still gives the one
      argument "", otherwise the trimmed, non-blank pieces of Java's split at
      the separator. */
  function LegacyArguments(paramList: string): (args: seq<string>)
    ensures paramList == "" ==> args == [""]
    ensures paramList != "" ==> forall k :: 0 <= k < |args| ==> args[k] != "" && IsTrimmed(args[k])
    ensures paramList != "" && '"' in paramList ==> forall k :: 0 <= k < |args| ==> '"' !in args[k]
    ensures paramList != "" && '"' !in paramList ==> forall k :: 0 <= k < |args| ==> ' ' !in args[k]
  {
    if paramList == "" then [""]
    else
      var c := LegacySeparator(paramList);
      var pieces := JavaSplit(paramList, c);
      KeepNonBlankAvoids(pieces, c);
      KeepNonBlankTrimmed(pieces);
      KeepNonBlank(pieces)
  }

  /** Trimming and dropping never brings a separator back. */
  lemma {:induction false} KeepNonBlankAvoids(pieces: seq<string>, c: char)
    requires forall k :: 0 <= k < |pieces| ==> c !in pieces[k]
    ensures forall k :: 0 <= k < |KeepNonBlank(pieces)| ==> c !in KeepNonBlank(pieces)[k]
    decreases |pieces|
  {
    if pieces != [] {
      TrimAvoids(pieces[0], c);
      KeepNonBlankAvoids(pieces[1..], c);
    }
  }

  /** The legacy arguments are exactly the trimmed, non-blank texts between
      consecutive separators, and those texts re-joined give back the
      parameter text: nothing outside the separators is lost but blanks. */
  lemma LegacyArgumentsAreSegments(paramList: string)
    requires paramList != ""
    ensures var c := LegacySeparator(paramList);
            && LegacyArguments(paramList) == KeepNonBlank(SplitOn(paramList, c))
            && Join(SplitOn(paramList, c), c) == paramList
  {
    var c := LegacySeparator(paramList);
    JavaSplitKeepsNonBlank(paramList, c);
    JoinSplit(paramList, c);
  }

  /** ShellScript.legacyCallShell2: split the command string, build the legacy
      arguments and run the script with them. */
  function LegacyCallShell2(command: string, fileExists: string -> bool, launch: Launcher): (r: ShellCall)
    ensures var (scriptname, paramList) := LegacySplit(command);
            && (!fileExists(scriptname) ==> r == ShellCall(Success(ERRORLEVEL_ERROR), None))
            && (fileExists(scriptname) ==>
                  var argv := [scriptname] + LegacyArguments(paramList);
                  r.launched == Some(argv) && r.result == Outcome(launch(argv)))
    ensures ' ' !in command && r.launched.Some? ==> r.launched.value == [command, ""]
  {
    var (scriptname, paramList) := LegacySplit(command);
    Execute(scriptname, Some(LegacyArguments(paramList)), fileExists, launch)
  }
}
